=== FILE: README.md ===
# photo-measure: the measurement session in Dafny

photo-measure is a browser tool. The user loads a photo, places two
calibration points, types in the real length between them, and then places
measurement points to read off distances in mm, cm or inches. The canvas can
be panned and zoomed.

This project models the part of the tool that has logic:

- the session state and the reducer that advances it under the twelve actions;
- the `addPoint` facade, which numbers point labels;
- the geometry and unit helpers;
- the rule that decides whether a canvas click places a point;
- the drag flag that suppresses clicks while panning;
- the zoom-about-pointer and fit-to-screen arithmetic.

Modules:

- `Types`: the entities (`Point`, `Line`, `Calibration`, `ImageData`, `AppState`, `AppAction`) and the default constants.
- `Utils`: pixel distance, pixels-to-units, unit conversion, point labels, rounding to hundredths, and clamp.
- `AppContext`: the initial state, the reducer `Reduce`, and the label the `addPoint` facade computes. It also proves an invariant of every reachable state.
- `ReducerProperties`: one lemma per action, stating what changes and what stays, plus lemmas about lines and labels.
- `App`: the stage handlers.
  - The drag flag lives in the class `StageController`.
  - Each handler returns the action it dispatches.
  - The wheel and fit-to-screen arithmetic are functions.
- `Scenario`: a concrete session of calibrate clicks and measure clicks, worked through end to end.

Numbers are `real`. Identifiers that the application draws from
`Math.random` are passed in by the caller as fresh strings. The model's
`Sqrt` is the non-negative root of a non-negative argument; it is only
ever applied to squared distances, which are never negative.

Some behaviour one might expect of such a tool is not in the code, and the
model follows the code:

- Adding a point only appends it. No line is created automatically.
- There is no sliding window of the last two calibration points.
- No action ever sets `calibration.points`. So from the initial state, entering a calibration distance never changes anything, and no scale is ever stored (`AppContext.CalibrationNeverEstablished`).
- When a calibration pair is present, any non-zero distance is accepted, including a negative one, and a scale is stored for it. A negative distance gives a negative scale, or 0 when the two calibration points coincide.
- A third calibration point is refused by the click handler. It does not move a window.

## Model

| member | source | states |
|---|---|---|
| AppContext.Initial | src/contexts/AppContext.tsx:6-25 | The session starts with no points, lines or selection, an all-null calibration, zoom 1 at offset (0,0), unit cm and pan mode. |
| AppContext.Reduce | src/contexts/AppContext.tsx:27-144 | Every action keeps a null calibration pair null and an all-null calibration all-null. Every action keeps the calibration fields consistent and keeps an in-range zoom in range. Only SET_UNIT changes the unit, and only SET_MODE changes the mode. |
| AppContext.Filter | src/contexts/AppContext.tsx:68-70 | `filter` keeps exactly the elements that pass the test, never grows the list, and returns the list unchanged when every element passes. |
| AppContext.CountOfType | src/contexts/AppContext.tsx:168 | The number of points of a kind is at most the number of points, and is 0 exactly when no point has that kind (the same count gates calibrate clicks at src/App.tsx:49-50). |
| AppContext.ZoomLevel | src/contexts/AppContext.tsx:114 | The stored zoom is always in [0.1, 10]. It equals the request when the request is in range, and sits at the nearer limit otherwise. |
| AppContext.ZoomLevelIsClamp | src/contexts/AppContext.tsx:114 | The reducer's max/min bound is `clamp` with the zoom limits. |
| AppContext.MovePoint | src/contexts/AppContext.tsx:55-63 | Moving keeps the length, and each point's id, kind and label. Matching points get the new coordinates, the others are unchanged, and an unknown id leaves the list equal. |
| AppContext.AddPointAction | src/contexts/AppContext.tsx:167-177 | The facade's ADD_POINT carries the given id, position and kind. Its label is the kind's letter followed by the decimal of (existing points of that kind + 1), without leading zeros. |
| AppContext.AddPointLabelIsOrdinal | src/contexts/AppContext.tsx:167-177 | After an add, the new point's label number equals the count of its kind. The other kind's count does not change. |
| AppContext.LabelledInOrderSnoc | src/contexts/AppContext.tsx:49-53 | Appending a point labelled after the points before it keeps every label equal to what the facade would give at that position. |
| AppContext.AddPointKeepsLabelledInOrder | src/contexts/AppContext.tsx:167-177 | Adding through the facade preserves the in-order labelling of the whole list. |
| AppContext.CountOfTypeGrows | src/contexts/AppContext.tsx:168 | A point of a kind is counted by every longer prefix, so the counts strictly grow. |
| AppContext.LabelledInOrderDistinct | src/contexts/AppContext.tsx:167-177 | While labels are in order, no two points share a label. |
| AppContext.Run | src/contexts/AppContext.tsx:27-144 | Every state reached from a state with an all-null calibration and an in-range zoom keeps both properties, whatever the actions. |
| AppContext.CalibrationNeverEstablished | src/contexts/AppContext.tsx:86-101 | From the initial state the calibration pair and the scale stay null, and SET_CALIBRATION_DISTANCE returns the state unchanged. |
| ReducerProperties.SetImageResetsViewport | src/contexts/AppContext.tsx:29-40 | SET_IMAGE stores the file, URL and size, and resets zoom to 1 and offset to (0,0). Everything else stays. |
| ReducerProperties.SetModeClearsSelection | src/contexts/AppContext.tsx:42-47 | SET_MODE sets the mode and empties the selection. Nothing else changes. |
| ReducerProperties.AddPointAppends | src/contexts/AppContext.tsx:49-53 | ADD_POINT puts the point last, after the unchanged earlier points. Every other field stays. |
| ReducerProperties.UpdatePointMovesOnly | src/contexts/AppContext.tsx:55-63 | UPDATE_POINT changes only the coordinates of the matching points. An unknown id leaves the state equal. |
| ReducerProperties.DeletePointRemoves | src/contexts/AppContext.tsx:65-72 | DELETE_POINT keeps exactly the other points and exactly the lines not ending at the id, so no line names the id. Calibration and other fields stay. |
| ReducerProperties.AddLineAppends | src/contexts/AppContext.tsx:74-78 | ADD_LINE appends the line. Nothing else changes. |
| ReducerProperties.DeleteLineRemoves | src/contexts/AppContext.tsx:80-84 | DELETE_LINE keeps exactly the lines with another id. Nothing else changes. |
| ReducerProperties.SetCalibrationDistanceEffect | src/contexts/AppContext.tsx:86-101 | With a calibration pair, the distance is stored and the scale times the distance equals the pair's pixel distance; nothing else changes. Without a pair, the state is returned unchanged. |
| ReducerProperties.SetUnitOnlyUnit | src/contexts/AppContext.tsx:103-107 | SET_UNIT changes only the unit. No stored value is converted. |
| ReducerProperties.SetZoomClamps | src/contexts/AppContext.tsx:109-116 | SET_ZOOM stores clamp(z, 0.1, 10), which equals z when z is in range. Nothing else changes. |
| ReducerProperties.SetZoomExtremes | src/contexts/AppContext.tsx:114 | A zoom of 1000 is stored as 10, and one of 0.0001 as 0.1. |
| ReducerProperties.SetPanStores | src/contexts/AppContext.tsx:118-125 | SET_PAN stores the offset as given, without clamping. Nothing else changes. |
| ReducerProperties.ClearAllResets | src/contexts/AppContext.tsx:127-139 | CLEAR_ALL empties points, lines and selection and nulls the calibration. Image, zoom, pan, unit and mode stay. |
| ReducerProperties.DeletePointKeepsLinesAttached | src/contexts/AppContext.tsx:65-72 | If every line names existing points before DELETE_POINT, the same holds after it. |
| ReducerProperties.UpdatePointKeepsLinesAttached | src/contexts/AppContext.tsx:55-63 | Moving a point never leaves a line naming a missing point. |
| ReducerProperties.LabelRepeatsAfterDelete | src/contexts/AppContext.tsx:167-177 | With C1 and C2 present, deleting C1 and adding a calibration point gives a second point labelled C2. |
| Utils.Min | src/contexts/AppContext.tsx:114 | `Math.min` is at most both arguments and is one of them. |
| Utils.Max | src/contexts/AppContext.tsx:114 | `Math.max` is at least both arguments and is one of them. |
| Utils.Sqrt | src/utils/index.ts:11 | The root is non-negative, squares back to its argument whenever a root exists, and is 0 for 0. |
| Utils.RootUnique | src/utils/index.ts:11 | A number has at most one non-negative square root. |
| Utils.SquaredDistance | src/utils/index.ts:9-11 | The sum of squared coordinate differences is non-negative. |
| Utils.PixelDistance | src/utils/index.ts:8-12 | The distance is non-negative, is 0 for equal coordinates, and squares to the squared distance whenever that has a root. |
| Utils.PixelDistanceSymmetric | src/utils/index.ts:8-12 | The distance from a to b equals the distance from b to a. |
| Utils.PixelDistanceExact | src/utils/index.ts:8-12 | When d is the non-negative root of the squared distance, the distance is d. |
| Utils.PixelsToUnits | src/utils/index.ts:17-20 | A zero scale gives 0. Otherwise the result times the scale gives back the pixel length. |
| Utils.MillimetresPer | src/utils/index.ts:30-40 | Every unit has a positive length in millimetres. |
| Utils.ConvertUnits | src/utils/index.ts:25-51 | Converting to the same unit returns the value. |
| Utils.ConvertIsRatio | src/utils/index.ts:28-50 | Conversion multiplies by the ratio of the two units' sizes in millimetres (10 for cm, 25.4 for inches). |
| Utils.ConvertRoundTrip | src/utils/index.ts:25-51 | Converting from A to B and back to A returns the original value. |
| Utils.ConvertLinear | src/utils/index.ts:25-51 | Conversion maps 0 to 0 and commutes with scaling. |
| Utils.NatToDecimal | src/utils/index.ts:65 | The rendering of a number is a non-empty string of digits with no leading zero. |
| Utils.DecimalRoundTrip | src/utils/index.ts:65 | Reading back the rendered decimal gives the number. |
| Utils.GeneratePointLabel | src/utils/index.ts:63-66 | A label is C or M, followed by digits with no leading zero that denote index + 1. |
| Utils.LabelInjective | src/utils/index.ts:63-66 | Different (kind, index) pairs never give the same label. |
| Utils.RoundHundredths | src/utils/index.ts:72 | `Math.round(d * 100)` is the nearest whole number of hundredths, with halves rounded upward. |
| Utils.RoundHundredthsExact | src/utils/index.ts:72 | A value with at most two decimals is not changed by rounding. |
| Utils.RoundHundredthsMonotone | src/utils/index.ts:72 | Rounding preserves order. |
| Utils.FormatDistance | src/utils/index.ts:71-74 | The displayed number is within half a hundredth of the distance, and is followed by a space and the unit name. |
| Utils.Clamp | src/utils/index.ts:87-89 | The result lies in [min, max] when min <= max, and equals the value when the value is in range. When min > max it returns max. It is always one of value, min and max. |
| Utils.ClampIdempotent | src/utils/index.ts:87-89 | Clamping twice gives the same result as clamping once. |
| App.PlacementAction | src/App.tsx:48-55 | A click places a point exactly in measure mode, or in calibrate mode while fewer than two calibration points exist. The point is the facade's, of the mode's kind. |
| App.StageController.constructor | src/App.tsx:29 | The drag flag starts lowered. |
| App.StageController.HandleStageDragStart | src/App.tsx:82-84 | Drag start raises the flag. |
| App.StageController.HandleStageDragEnd | src/App.tsx:86-93 | Drag end always lowers the flag. It dispatches SET_PAN with the stage position exactly when the target is the stage itself. |
| App.StageController.HandleStageClick | src/App.tsx:35-56 | Without an image nothing is dispatched and the flag stays. "Without an image" is `HasImage`, the definition of the truthiness test `!!state.image.url` (src/App.tsx:36, :127): the URL is null or empty. With the flag up, the flag is lowered and nothing is placed. Otherwise the placement rule decides and the flag stays down. |
| App.ClickDuringDrag | src/App.tsx:35-56 | A click between drag start and drag end dispatches nothing. |
| App.ClickAfterDragEnd | src/App.tsx:82-93 | After a stage drag ends, the pan is dispatched and a following click is handled normally. |
| App.ClickStep | src/App.tsx:35-56 | One stage click with the drag flag down: without an image it changes nothing; in every case it never changes the lines, the mode, the calibration or the image. |
| App.ClickWithoutPlacement | src/App.tsx:48-55 | In calibrate mode with two calibration points, or in pan mode, a click leaves the state as it is. |
| App.NoImageClicksChangeNothing | src/App.tsx:36 | Without an image, any sequence of clicks leaves the state equal. |
| App.ClickKeepsCalibrationPointsAtMostTwo | src/App.tsx:48-52 | One click never raises the number of calibration points above two. |
| App.ClicksKeepCalibrationPointsAtMostTwo | src/App.tsx:48-52 | Any sequence of clicks keeps the calibration points at two or fewer, and keeps the lines and the mode. |
| App.MeasureClicksAddOnePointEach | src/App.tsx:53-55 | In measure mode, with an image loaded, each click adds exactly one measurement point, and no calibration point. |
| App.PanClicksChangeNothing | src/App.tsx:48-55 | In pan mode clicks leave the state equal. |
| App.ImagePointUnder | src/App.tsx:65-68 | The image point under the pointer is the one the stage draws at the pointer's position. |
| App.ScreenImageRoundTrip | src/components/ImageCanvas/CanvasContainer.tsx:56-59 | Drawing an image point at the stage's zoom and offset and reading back the image point under it is lossless, in both directions. |
| App.WheelZoom | src/App.tsx:58-80 | The new scale is clamp(old scale × factor, 0.1, 10). The new offset keeps the image point under the pointer where it was. |
| App.ApplyFraming | src/App.tsx:72-79 | setZoom then setPan stores the clamped scale and the offset as given, and changes nothing else. |
| App.WheelKeepsPointUnderPointer | src/App.tsx:58-80 | After dispatching a wheel step, the stored zoom and pan keep the image point under the pointer fixed. |
| App.FitToScreen | src/App.tsx:107-125 | Without image dimensions or a container there is nothing to do. Otherwise the scaled image fits on both axes, fills one of them, and is centred. |
| App.FitToScreenStoredFraming | src/App.tsx:119-124 | With the fit scale in [0.1, 10] the stored view is centred. Below 0.1 the image sits right of and below centre. Above 10 it sits left of and above centre. |
| Scenario.TwoPlacingClicks | src/App.tsx:35-56 | Two clicks on a session without points give two points of the mode's kind, at the clicked spots, labelled 1 and 2. |
| Scenario.CalibrationClicksFrom | src/App.tsx:48-52 | Three calibrate clicks give C1 and C2 only, 200 pixels apart. Entering 20 afterwards changes nothing. |
| Scenario.CalibrationClicks | src/contexts/AppContext.tsx:86-101 | After loading an image, the same clicks leave no line and no stored scale. |
| Scenario.MeasurementClicks | src/utils/index.ts:17-20 | Measurement points 50 pixels apart at 10 pixels per cm are labelled M1 and M2 and are 500 hundredths of a cm apart, which is displayed as 5 cm. |

## Left out

- The `default:` branch of the reducer returns the state unchanged for an unknown action tag. `AppAction` is a closed datatype, so that branch cannot be reached and is not modelled.
- Utils.PixelDistance: `Math.sqrt` is modelled by `Sqrt`, the non-negative root of a non-negative argument (0 for a negative one, where `Math.sqrt` gives NaN; squared distances are never negative). Every non-negative real has a root, but the verifier can only use the root property when it is given the root itself (as `PixelDistanceExact` is). So exact distances are stated for a known root, and in general only non-negativity, symmetry and zero for equal points.
- AppContext.Reduce: SET_CALIBRATION_DISTANCE with a calibration pair and the distance 0 divides by zero (JavaScript yields Infinity or NaN). The reducer instead requires a non-zero distance in that case; on reachable states the pair is always null, so nothing is excluded there.
- App.FitToScreen: the image dimensions must be positive. A zero-size image would divide by zero, and Infinity is not modelled.
- App.WheelZoom: the current scale must be non-zero. Stored scales are always at least 0.1. The wheel factor `Math.pow(1.1, -deltaY / 100)` is an input rather than computed.
- Floating point: all numbers are exact reals. IEEE rounding, Infinity and NaN are not modelled.
- `formatDistance` renders its number with JavaScript's number-to-string conversion. Only the rounding to whole hundredths and the unit suffix are modelled.
- Konva's inverse stage transform that turns the pointer position into an image position is a library call. The image position is an input to the click handler.
- `generateId` (random ids), `debounce` (timers) and `isSupportedImageFormat` (MIME check) are not modelled. Ids are caller-supplied fresh strings.
- Image upload and loading, and rendering of points, lines and the image, are browser I/O and drawing. They are not part of this model.
- The context's other facade callbacks (`updatePoint`, `deletePoint`, `addLine`, `deleteLine`, `setCalibrationDistance`, `setUnit`, `setMode`, `setZoom`, `setPan`, `clearAll`) each dispatch one action with their arguments. They are covered by the reducer lemmas. `addLine` would draw its line id from `generateId`, which is not modelled.
- The point drag and click handlers in the shell only forward to `updatePoint` or do nothing. They are covered by the UPDATE_POINT lemmas.
- Update in place and React rendering order: the reducer is a pure function of the previous state, as in the source. The `useCallback` closures that may read a stale `state` are not modelled.

=== FILE: App.dfy ===
/**
 * The canvas handlers of the application shell: click-to-place gated by
 * mode, image and the drag flag; zoom about the pointer on wheel; and
 * fit-to-screen framing. Each handler yields the actions it dispatches.
 */
module App {
  import opened Types
  import opened Utils
  import opened AppContext

  /** `!!state.image.url`: a URL is present and is not the empty string. */
  function HasImage(s: AppState): (r: bool)
  {
    s.image.url.Some? && s.image.url.value != ""
  }

  /**
   * The ADD_POINT a stage click dispatches at image position `at`, if
   * any: in calibrate mode only while fewer than two calibration points
   * exist, in measure mode always, in pan mode never.
   */
  function PlacementAction(s: AppState, at: Vec2, freshId: string): (r: Option<AppAction>)
    ensures r.Some? <==> s.activeMode == Measure
                         || (s.activeMode == Calibrate && CountOfType(s.points, CalibrationType) < 2)
    ensures r.Some? ==> r.value == AddPointAction(s, freshId, at.x, at.y,
                                                  if s.activeMode == Calibrate then CalibrationType
                                                  else MeasurementType)
  {
    match s.activeMode
    case Calibrate =>
      if CountOfType(s.points, CalibrationType) < 2
      then Some(AddPointAction(s, freshId, at.x, at.y, CalibrationType))
      else None
    case Measure => Some(AddPointAction(s, freshId, at.x, at.y, MeasurementType))
    case Pan => None
  }

  /** The stage's click and drag handlers around the `isDraggingRef` flag. */
  class StageController {
    /** Set while the stage is being dragged (panned). */
    var dragging: bool

    constructor ()
      ensures !dragging
    {
      dragging := false;
    }

    /** Drag start raises the flag. */
    method HandleStageDragStart()
      modifies this
      ensures dragging
    {
      dragging := true;
    }

    /**
     * Drag end always lowers the flag, and stores the stage position as
     * the pan offset only when the dragged target is the stage itself.
     */
    method HandleStageDragEnd(targetIsStage: bool, stagePos: Vec2) returns (dispatched: Option<AppAction>)
      modifies this
      ensures !dragging
      ensures dispatched == (if targetIsStage then Some(SetPan(stagePos)) else None)
    {
      dispatched := None;
      if targetIsStage {
        dispatched := Some(SetPan(stagePos));
      }
      dragging := false;
    }

    /**
     * A click at image position `at`: nothing without an image (the flag
     * is left as it is); a click while the flag is up only lowers it;
     * otherwise the placement rule decides.
     */
    method HandleStageClick(s: AppState, at: Vec2, freshId: string) returns (dispatched: Option<AppAction>)
      modifies this
      ensures !HasImage(s) ==> dispatched.None? && dragging == old(dragging)
      ensures HasImage(s) && old(dragging) ==> dispatched.None? && !dragging
      ensures HasImage(s) && !old(dragging) ==> dispatched == PlacementAction(s, at, freshId) && !dragging
    {
      if !HasImage(s) {
        return None;
      }
      if dragging {
        dragging := false;
        return None;
      }
      dispatched := PlacementAction(s, at, freshId);
    }
  }

  /** A click that arrives between drag start and drag end places nothing. */
  method ClickDuringDrag(s: AppState, at: Vec2, freshId: string) returns (dispatched: Option<AppAction>)
    ensures dispatched.None?
  {
    var c := new StageController();
    c.HandleStageDragStart();
    dispatched := c.HandleStageClick(s, at, freshId);
  }

  /**
   * Drag end lowers the flag itself, so a click that arrives after a
   * stage drag has ended is handled like any other click.
   */
  method ClickAfterDragEnd(s: AppState, stagePos: Vec2, at: Vec2, freshId: string)
    returns (pan: Option<AppAction>, click: Option<AppAction>)
    requires HasImage(s)
    ensures pan == Some(SetPan(stagePos))
    ensures click == PlacementAction(s, at, freshId)
  {
    var c := new StageController();
    c.HandleStageDragStart();
    pan := c.HandleStageDragEnd(true, stagePos);
    click := c.HandleStageClick(s, at, freshId);
  }

  // ---------------------------------------------------------------------
  // Click sequences
  // ---------------------------------------------------------------------

  /** One stage click: its image position and the fresh id a new point would get. */
  datatype Click = Click(at: Vec2, freshId: string)

  /**
   * The state after one stage click with the drag flag down: without an
   * image nothing happens, otherwise the placement rule's action is applied.
   */
  ghost function ClickStep(s: AppState, c: Click): (r: AppState)
    ensures r.lines == s.lines && r.activeMode == s.activeMode && r.calibration == s.calibration
    ensures r.image == s.image
    ensures !HasImage(s) ==> r == s
  {
    if !HasImage(s) then s
    else
      match PlacementAction(s, c.at, c.freshId)
      case Some(a) => Reduce(s, a)
      case None => s
  }

  /** A click for which the placement rule yields no action leaves the state as it is. */
  lemma ClickWithoutPlacement(s: AppState, c: Click)
    requires CountOfType(s.points, CalibrationType) >= 2 || s.activeMode == Pan
    requires s.activeMode != Measure
    ensures ClickStep(s, c) == s
  {
  }

  /** The state after a sequence of stage clicks, with the drag flag down throughout. */
  ghost function AfterClicks(s: AppState, clicks: seq<Click>): AppState
    decreases |clicks|
  {
    if clicks == [] then s else AfterClicks(ClickStep(s, clicks[0]), clicks[1..])
  }

  /** Clicks are handled one after the other. */
  lemma AfterClicksCons(s: AppState, c: Click, rest: seq<Click>)
    ensures AfterClicks(s, [c] + rest) == AfterClicks(ClickStep(s, c), rest)
  {
    assert ([c] + rest)[0] == c && ([c] + rest)[1..] == rest;
  }

  /** A single click never raises the number of calibration points above two. */
  lemma ClickKeepsCalibrationPointsAtMostTwo(s: AppState, c: Click)
    requires CountOfType(s.points, CalibrationType) <= 2
    ensures var r := PlacementAction(s, c.at, c.freshId);
            r.Some? ==> CountOfType(Reduce(s, r.value).points, CalibrationType) <= 2
  {
    var r := PlacementAction(s, c.at, c.freshId);
    if r.Some? {
      CountOfTypeSnoc(s.points, r.value.point, CalibrationType);
    }
  }

  /**
   * Clicks only ever add points: they create no line, and they never take
   * the calibration points above two.
   */
  lemma {:induction false} ClicksKeepCalibrationPointsAtMostTwo(s: AppState, clicks: seq<Click>)
    requires CountOfType(s.points, CalibrationType) <= 2
    ensures CountOfType(AfterClicks(s, clicks).points, CalibrationType) <= 2
    ensures AfterClicks(s, clicks).lines == s.lines
    ensures AfterClicks(s, clicks).activeMode == s.activeMode
    decreases |clicks|
  {
    if clicks != [] {
      var c := clicks[0];
      ClickKeepsCalibrationPointsAtMostTwo(s, c);
      ClicksKeepCalibrationPointsAtMostTwo(ClickStep(s, c), clicks[1..]);
    }
  }

  /** In measure mode every click adds exactly one measurement point. */
  lemma {:induction false} MeasureClicksAddOnePointEach(s: AppState, clicks: seq<Click>)
    requires s.activeMode == Measure && HasImage(s)
    ensures var r := AfterClicks(s, clicks);
            && |r.points| == |s.points| + |clicks|
            && CountOfType(r.points, MeasurementType) == CountOfType(s.points, MeasurementType) + |clicks|
            && CountOfType(r.points, CalibrationType) == CountOfType(s.points, CalibrationType)
    decreases |clicks|
  {
    if clicks != [] {
      var c := clicks[0];
      var a := AddPointAction(s, c.freshId, c.at.x, c.at.y, MeasurementType);
      CountOfTypeSnoc(s.points, a.point, MeasurementType);
      CountOfTypeSnoc(s.points, a.point, CalibrationType);
      assert ClickStep(s, c) == Reduce(s, a);
      MeasureClicksAddOnePointEach(ClickStep(s, c), clicks[1..]);
    }
  }

  /** Without an image clicks change nothing. */
  lemma {:induction false} NoImageClicksChangeNothing(s: AppState, clicks: seq<Click>)
    requires !HasImage(s)
    ensures AfterClicks(s, clicks) == s
    decreases |clicks|
  {
    if clicks != [] {
      NoImageClicksChangeNothing(ClickStep(s, clicks[0]), clicks[1..]);
    }
  }

  /** In pan mode clicks change nothing. */
  lemma {:induction false} PanClicksChangeNothing(s: AppState, clicks: seq<Click>)
    requires s.activeMode == Pan
    ensures AfterClicks(s, clicks) == s
    decreases |clicks|
  {
    if clicks != [] {
      PanClicksChangeNothing(ClickStep(s, clicks[0]), clicks[1..]);
    }
  }

  // ---------------------------------------------------------------------
  // Viewport arithmetic
  // ---------------------------------------------------------------------

  /** A zoom level with the pan offset that goes with it. */
  datatype Framing = Framing(scale: real, offset: Vec2)

  /** The image point shown under a container position for a given zoom and pan. */
  function ImagePointUnder(pointer: Vec2, scale: real, offset: Vec2): (p: Vec2)
    requires scale != 0.0
    ensures ScreenPointOf(p, scale, offset) == pointer
  {
    Vec2((pointer.x - offset.x) / scale, (pointer.y - offset.y) / scale)
  }

  /** Where the stage draws an image point for a given zoom and pan. */
  function ScreenPointOf(p: Vec2, scale: real, offset: Vec2): Vec2
  {
    Vec2(p.x * scale + offset.x, p.y * scale + offset.y)
  }

  /** Drawing an image point and reading back the point under it is lossless. */
  lemma ScreenImageRoundTrip(p: Vec2, scale: real, offset: Vec2)
    requires scale != 0.0
    ensures ImagePointUnder(ScreenPointOf(p, scale, offset), scale, offset) == p
    ensures ScreenPointOf(ImagePointUnder(p, scale, offset), scale, offset) == p
  {
  }

  /**
   * Wheel zoom: the scale is multiplied by `factor` (`1.1` to the power
   * of the wheel delta) and clamped to [0.1, 10]; the new pan offset keeps
   * the image point under the pointer where it was.
   */
  function WheelZoom(oldScale: real, stagePos: Vec2, pointer: Vec2, factor: real): (f: Framing)
    requires oldScale != 0.0
    ensures f.scale == Clamp(oldScale * factor, MIN_ZOOM, MAX_ZOOM)
    ensures ImagePointUnder(pointer, f.scale, f.offset) == ImagePointUnder(pointer, oldScale, stagePos)
  {
    var mousePointTo := ImagePointUnder(pointer, oldScale, stagePos);
    var newScale := ZoomLevel(oldScale * factor);
    ZoomLevelIsClamp(oldScale * factor);
    Framing(newScale, Vec2(pointer.x - mousePointTo.x * newScale, pointer.y - mousePointTo.y * newScale))
  }

  /** `setZoom(f.scale)` followed by `setPan(f.offset)`. */
  ghost function ApplyFraming(s: AppState, f: Framing): (r: AppState)
    ensures r.image.scale == Clamp(f.scale, MIN_ZOOM, MAX_ZOOM)
    ensures r.image.offset == f.offset
    ensures r.(image := s.image) == s
    ensures r.image.(scale := s.image.scale, offset := s.image.offset) == s.image
  {
    ZoomLevelIsClamp(f.scale);
    Reduce(Reduce(s, SetZoom(f.scale)), SetPan(f.offset))
  }

  /**
   * Dispatching a wheel step from the current state keeps the image point
   * under the pointer fixed in the stored state.
   */
  lemma WheelKeepsPointUnderPointer(s: AppState, pointer: Vec2, factor: real)
    requires s.image.scale != 0.0
    ensures var f := WheelZoom(s.image.scale, s.image.offset, pointer, factor);
            var r := ApplyFraming(s, f);
            && r.image.scale == f.scale
            && ImagePointUnder(pointer, r.image.scale, r.image.offset)
               == ImagePointUnder(pointer, s.image.scale, s.image.offset)
  {
  }

  /**
   * Fit to screen: nothing without image dimensions or a container;
   * otherwise the largest scale at which the image fits the container,
   * with the image centred.
   */
  function FitToScreen(dims: Option<Dimensions>, container: Option<Dimensions>): (r: Option<Framing>)
    requires dims.Some? ==> dims.value.width > 0.0 && dims.value.height > 0.0
    ensures r.Some? <==> dims.Some? && container.Some?
    ensures r.Some? ==>
              var (iw, ih) := (dims.value.width, dims.value.height);
              var (cw, ch) := (container.value.width, container.value.height);
              var f := r.value;
              && iw * f.scale <= cw && ih * f.scale <= ch
              && (iw * f.scale == cw || ih * f.scale == ch)
              && 2.0 * f.offset.x + iw * f.scale == cw
              && 2.0 * f.offset.y + ih * f.scale == ch
  {
    if dims.None? || container.None? then None
    else
      var (cw, ch) := (container.value.width, container.value.height);
      var (iw, ih) := (dims.value.width, dims.value.height);
      var scale := Min(cw / iw, ch / ih);
      assert iw * (cw / iw) == cw && ih * (ch / ih) == ch;
      Some(Framing(scale, Vec2((cw - iw * scale) / 2.0, (ch - ih * scale) / 2.0)))
  }

  /**
   * The fit offsets are computed from the unclamped scale while the
   * stored zoom is clamped: when the fit scale is within [0.1, 10] the
   * stored view is centred, below 0.1 the image sits right of and below
   * centre, above 10 it sits left of and above centre.
   */
  lemma FitToScreenStoredFraming(s: AppState, container: Dimensions)
    requires s.image.dimensions.Some?
    requires s.image.dimensions.value.width > 0.0 && s.image.dimensions.value.height > 0.0
    ensures var f := FitToScreen(s.image.dimensions, Some(container)).value;
            var r := ApplyFraming(s, f);
            var (iw, ih) := (s.image.dimensions.value.width, s.image.dimensions.value.height);
            var gapX := 2.0 * r.image.offset.x + iw * r.image.scale - container.width;
            var gapY := 2.0 * r.image.offset.y + ih * r.image.scale - container.height;
            && (MIN_ZOOM <= f.scale <= MAX_ZOOM ==> r.image.scale == f.scale && gapX == 0.0 && gapY == 0.0)
            && (f.scale < MIN_ZOOM ==> r.image.scale == MIN_ZOOM && gapX > 0.0 && gapY > 0.0)
            && (f.scale > MAX_ZOOM ==> r.image.scale == MAX_ZOOM && gapX < 0.0 && gapY < 0.0)
  {
    var f := FitToScreen(s.image.dimensions, Some(container)).value;
    var (iw, ih) := (s.image.dimensions.value.width, s.image.dimensions.value.height);
    assert iw * MIN_ZOOM - iw * f.scale == iw * (MIN_ZOOM - f.scale);
    assert ih * MIN_ZOOM - ih * f.scale == ih * (MIN_ZOOM - f.scale);
    assert iw * MAX_ZOOM - iw * f.scale == iw * (MAX_ZOOM - f.scale);
    assert ih * MAX_ZOOM - ih * f.scale == ih * (MAX_ZOOM - f.scale);
  }
}

=== FILE: AppContext.dfy ===
/**
 * The session reducer: the initial state, the transition function over
 * the twelve actions, the `addPoint` facade that labels a new point, and
 * what holds of every state reachable from the initial one.
 */
module AppContext {
  import opened Types
  import opened Utils

  // ---------------------------------------------------------------------
  // Sequence helpers (`Array.prototype.filter`)
  // ---------------------------------------------------------------------

  /**
   * The elements of `xs` that `keep` accepts, in their original order and
   * with their multiplicity (`FilterSnoc` states how it grows element by element).
   */
  function Filter<T(!new)>(xs: seq<T>, keep: T -> bool): (r: seq<T>)
    ensures |r| <= |xs|
    ensures forall x :: x in r <==> x in xs && keep(x)
    ensures (forall x :: x in xs ==> keep(x)) ==> r == xs
  {
    if xs == [] then []
    else
      var init, last := xs[..|xs| - 1], xs[|xs| - 1];
      assert xs == init + [last];
      Filter(init, keep) + (if keep(last) then [last] else [])
  }

  /** Filtering a sequence with one more element at the end. */
  lemma FilterSnoc<T(!new)>(xs: seq<T>, x: T, keep: T -> bool)
    ensures Filter(xs + [x], keep) == Filter(xs, keep) + (if keep(x) then [x] else [])
  {
    assert (xs + [x])[..|xs + [x]| - 1] == xs;
  }

  /** `points.filter(p => p.type === t).length`. */
  function CountOfType(ps: seq<Point>, t: PointType): (n: nat)
    ensures n <= |ps|
    ensures n == 0 <==> forall p :: p in ps ==> p.pointType != t
  {
    var r := Filter(ps, (p: Point) => p.pointType == t);
    assert |r| > 0 ==> r[0] in r;
    |r|
  }

  /** Appending a point raises the count of its own kind by one, and no other. */
  lemma CountOfTypeSnoc(ps: seq<Point>, p: Point, t: PointType)
    ensures CountOfType(ps + [p], t) == CountOfType(ps, t) + (if p.pointType == t then 1 else 0)
  {
    FilterSnoc(ps, p, (q: Point) => q.pointType == t);
  }

  // ---------------------------------------------------------------------
  // Initial state and the reducer
  // ---------------------------------------------------------------------

  /** The state the session starts in. */
  function Initial(): (s: AppState)
    ensures s.points == [] && s.lines == [] && s.selectedPoints == []
    ensures s.calibration == NoCalibration
    ensures s.image.file.None? && s.image.url.None? && s.image.dimensions.None?
    ensures s.image.scale == 1.0 && s.image.offset == Vec2(0.0, 0.0)
    ensures s.selectedUnit == Cm && s.activeMode == Pan
  {
    AppState(ImageData(None, None, None, DEFAULT_ZOOM, Vec2(0.0, 0.0)),
             NoCalibration, [], [], DEFAULT_UNIT, Pan, [])
  }

  /** `Math.max(MIN_ZOOM, Math.min(MAX_ZOOM, z))`: the zoom level a requested zoom is stored as. */
  function ZoomLevel(z: real): (r: real)
    ensures MIN_ZOOM <= r <= MAX_ZOOM
    ensures MIN_ZOOM <= z <= MAX_ZOOM ==> r == z
    ensures z < MIN_ZOOM ==> r == MIN_ZOOM
    ensures z > MAX_ZOOM ==> r == MAX_ZOOM
  {
    Max(MIN_ZOOM, Min(MAX_ZOOM, z))
  }

  /** The reducer's zoom bound is the general clamp with the zoom limits. */
  lemma ZoomLevelIsClamp(z: real)
    ensures ZoomLevel(z) == Clamp(z, MIN_ZOOM, MAX_ZOOM)
  {
  }

  /** Moves every point whose id matches to (x, y); everything else is kept. */
  function MovePoint(ps: seq<Point>, id: string, x: real, y: real): (r: seq<Point>)
    ensures |r| == |ps|
    ensures forall i :: 0 <= i < |ps| ==>
              r[i].id == ps[i].id && r[i].pointType == ps[i].pointType
              && r[i].displayLabel == ps[i].displayLabel
    ensures forall i :: 0 <= i < |ps| ==>
              if ps[i].id == id then r[i].x == x && r[i].y == y else r[i] == ps[i]
    ensures (forall p :: p in ps ==> p.id != id) ==> r == ps
  {
    seq(|ps|, i requires 0 <= i < |ps| => if ps[i].id == id then ps[i].(x := x, y := y) else ps[i])
  }

  /**
   * What the reducer needs of an action: the calibration distance is
   * divided into the pixel distance, so it must not be zero when a
   * calibration pair is present.
   */
  predicate Dispatchable(s: AppState, a: AppAction)
  {
    a.SetCalibrationDistance? && s.calibration.points.Some? ==> a.distance != 0.0
  }

  /**
   * The calibration fields agree: a distance is stored exactly when a
   * scale is, and then the scale times the distance is the pixel length
   * of the calibration pair.
   */
  ghost predicate CalibrationConsistent(c: Calibration)
  {
    && (c.actualDistance.Some? <==> c.pixelsPerUnit.Some?)
    && (c.pixelsPerUnit.Some? ==>
          && c.points.Some?
          && c.actualDistance.value != 0.0
          && c.pixelsPerUnit.value * c.actualDistance.value
             == PixelDistance(c.points.value.0, c.points.value.1))
  }

  /** The next session state after one action. */
  ghost function Reduce(s: AppState, a: AppAction): (r: AppState)
    requires Dispatchable(s, a)
    ensures s.calibration.points.None? ==> r.calibration.points.None?
    ensures s.calibration == NoCalibration ==> r.calibration == NoCalibration
    ensures CalibrationConsistent(s.calibration) ==> CalibrationConsistent(r.calibration)
    ensures MIN_ZOOM <= s.image.scale <= MAX_ZOOM ==> MIN_ZOOM <= r.image.scale <= MAX_ZOOM
    ensures r.selectedUnit == (if a.SetUnit? then a.unit else s.selectedUnit)
    ensures r.activeMode == (if a.SetMode? then a.mode else s.activeMode)
  {
    match a
    case SetImage(file, url, dimensions) =>
      s.(image := s.image.(file := Some(file), url := Some(url), dimensions := Some(dimensions),
                           scale := DEFAULT_ZOOM, offset := Vec2(0.0, 0.0)))
    case SetMode(mode) =>
      s.(activeMode := mode, selectedPoints := [])
    case AddPoint(p) =>
      s.(points := s.points + [p])
    case UpdatePoint(id, x, y) =>
      s.(points := MovePoint(s.points, id, x, y))
    case DeletePoint(id) =>
      s.(points := Filter(s.points, (p: Point) => p.id != id),
         lines := Filter(s.lines, (l: Line) => l.startPointId != id && l.endPointId != id))
    case AddLine(l) =>
      s.(lines := s.lines + [l])
    case DeleteLine(id) =>
      s.(lines := Filter(s.lines, (l: Line) => l.id != id))
    case SetCalibrationDistance(d) =>
      (match s.calibration.points
       case Some((p0, p1)) =>
         var pixelsPerUnit := PixelDistance(p0, p1) / d;
         s.(calibration := s.calibration.(actualDistance := Some(d),
                                           pixelsPerUnit := Some(pixelsPerUnit)))
       case None => s)
    case SetUnit(unit) =>
      s.(selectedUnit := unit)
    case SetZoom(z) =>
      s.(image := s.image.(scale := ZoomLevel(z)))
    case SetPan(offset) =>
      s.(image := s.image.(offset := offset))
    case ClearAll =>
      s.(calibration := NoCalibration, points := [], lines := [], selectedPoints := [])
  }

  // ---------------------------------------------------------------------
  // The addPoint facade
  // ---------------------------------------------------------------------

  /**
   * The ADD_POINT action `addPoint` dispatches: the point gets the
   * caller-supplied fresh id and a label numbered after the points of
   * its kind that exist now.
   */
  function AddPointAction(s: AppState, id: string, x: real, y: real, t: PointType): (a: AppAction)
    ensures a.AddPoint? && a.point.id == id && a.point.x == x && a.point.y == y
    ensures a.point.pointType == t
    ensures var text := a.point.displayLabel;
            && |text| >= 2 && text[0] == (if t == CalibrationType then 'C' else 'M') && AllDigits(text[1..]) && text[1] != '0'
            && DecimalValue(text[1..]) == CountOfType(s.points, t) + 1
  {
    AddPoint(Point(id, x, y, t, GeneratePointLabel(t, CountOfType(s.points, t))))
  }

  /**
   * A point added through the facade is labelled with its 1-based ordinal
   * among the points of its kind, and the counts of the other kind stay.
   */
  lemma AddPointLabelIsOrdinal(s: AppState, id: string, x: real, y: real, t: PointType, u: PointType)
    ensures var r := Reduce(s, AddPointAction(s, id, x, y, t));
            && |r.points| == |s.points| + 1
            && CountOfType(r.points, u) == CountOfType(s.points, u) + (if u == t then 1 else 0)
            && DecimalValue(r.points[|s.points|].displayLabel[1..]) == CountOfType(r.points, t)
  {
    var a := AddPointAction(s, id, x, y, t);
    CountOfTypeSnoc(s.points, a.point, u);
    CountOfTypeSnoc(s.points, a.point, t);
  }

  /** Every point carries the label the facade would give it at its position. */
  predicate LabelledInOrder(ps: seq<Point>)
  {
    forall i :: 0 <= i < |ps| ==> ps[i].displayLabel == LabelAt(ps, i)
  }

  /** The label the facade gives the point at position i of ps. */
  function LabelAt(ps: seq<Point>, i: nat): string
    requires i < |ps|
  {
    GeneratePointLabel(ps[i].pointType, CountOfType(ps[..i], ps[i].pointType))
  }

  /** Appending a point leaves the labels due at the earlier positions as they were. */
  lemma LabelAtSnoc(ps: seq<Point>, p: Point, i: nat)
    requires i <= |ps|
    ensures i < |ps| ==> LabelAt(ps + [p], i) == LabelAt(ps, i)
    ensures i == |ps| ==> LabelAt(ps + [p], i) == GeneratePointLabel(p.pointType, CountOfType(ps, p.pointType))
  {
    assert (ps + [p])[..i] == ps[..i];
    assert ps[..|ps|] == ps;
  }

  /** Appending a point labelled after the points before it keeps the labels in order. */
  lemma LabelledInOrderSnoc(ps: seq<Point>, p: Point)
    requires LabelledInOrder(ps)
    requires p.displayLabel == GeneratePointLabel(p.pointType, CountOfType(ps, p.pointType))
    ensures LabelledInOrder(ps + [p])
  {
    forall i | 0 <= i < |ps + [p]|
      ensures (ps + [p])[i].displayLabel == LabelAt(ps + [p], i)
    {
      LabelAtSnoc(ps, p, i);
    }
  }

  /** Adding a point through the facade keeps the labels in order. */
  lemma AddPointKeepsLabelledInOrder(s: AppState, id: string, x: real, y: real, t: PointType)
    requires LabelledInOrder(s.points)
    ensures LabelledInOrder(Reduce(s, AddPointAction(s, id, x, y, t)).points)
  {
    LabelledInOrderSnoc(s.points, AddPointAction(s, id, x, y, t).point);
  }

  /** Among the first points, a point of kind t is counted by every longer prefix. */
  lemma {:induction false} CountOfTypeGrows(ps: seq<Point>, i: nat, j: nat)
    requires i < j <= |ps|
    ensures CountOfType(ps[..i], ps[i].pointType) < CountOfType(ps[..j], ps[i].pointType)
  {
    var t := ps[i].pointType;
    assert ps[..j] == ps[..j - 1] + [ps[j - 1]];
    CountOfTypeSnoc(ps[..j - 1], ps[j - 1], t);
    if i < j - 1 {
      CountOfTypeGrows(ps, i, j - 1);
    } else {
      assert ps[..j - 1] == ps[..i];
    }
  }

  /** When labels are in order, no two points share a label. */
  lemma LabelledInOrderDistinct(ps: seq<Point>, i: nat, j: nat)
    requires LabelledInOrder(ps)
    requires i < j < |ps|
    ensures ps[i].displayLabel != ps[j].displayLabel
  {
    if ps[i].displayLabel == ps[j].displayLabel {
      var ti, tj := ps[i].pointType, ps[j].pointType;
      LabelInjective(ti, CountOfType(ps[..i], ti), tj, CountOfType(ps[..j], tj));
      CountOfTypeGrows(ps, i, j);
      assert false;
    }
  }

  // ---------------------------------------------------------------------
  // Reachable states
  // ---------------------------------------------------------------------

  /**
   * What holds of every reachable state: no calibration field is ever
   * set, and the zoom stays within its limits.
   */
  ghost predicate Inv(s: AppState)
  {
    s.calibration == NoCalibration && MIN_ZOOM <= s.image.scale <= MAX_ZOOM
  }

  /** The state after a sequence of actions, applied first to last. */
  ghost function Run(s: AppState, acts: seq<AppAction>): (r: AppState)
    requires Inv(s)
    ensures Inv(r)
    decreases |acts|
  {
    if acts == [] then s else Run(Reduce(s, acts[0]), acts[1..])
  }

  /**
   * From the initial state no action sequence ever sets the calibration
   * pair, so SET_CALIBRATION_DISTANCE leaves every reachable state as it
   * is and no scale is ever stored.
   */
  lemma CalibrationNeverEstablished(acts: seq<AppAction>, d: real)
    ensures var s := Run(Initial(), acts);
            && s.calibration.points.None?
            && s.calibration.pixelsPerUnit.None?
            && Reduce(s, SetCalibrationDistance(d)) == s
  {
  }
}

=== FILE: ReducerProperties.dfy ===
/**
 * What each reducer action changes and what it leaves alone, the
 * referential integrity of lines under point deletion and dragging, and
 * the label numbering the facade produces.
 */
module ReducerProperties {
  import opened Types
  import opened Utils
  import opened AppContext

  /** SET_IMAGE replaces the image and resets the viewport; points, lines and calibration stay. */
  lemma SetImageResetsViewport(s: AppState, file: FileHandle, url: string, dims: Dimensions)
    ensures var r := Reduce(s, SetImage(file, url, dims));
            && r.image == ImageData(Some(file), Some(url), Some(dims), 1.0, Vec2(0.0, 0.0))
            && r.(image := s.image) == s
  {
  }

  /** SET_MODE sets the mode and empties the selection, and nothing else. */
  lemma SetModeClearsSelection(s: AppState, m: Mode)
    ensures var r := Reduce(s, SetMode(m));
            && r.activeMode == m && r.selectedPoints == []
            && r.(activeMode := s.activeMode, selectedPoints := s.selectedPoints) == s
  {
  }

  /** ADD_POINT appends the point as the last one; no line and no calibration field changes. */
  lemma AddPointAppends(s: AppState, p: Point)
    ensures var r := Reduce(s, AddPoint(p));
            && |r.points| == |s.points| + 1
            && r.points[|s.points|] == p
            && r.points[..|s.points|] == s.points
            && r.(points := s.points) == s
  {
  }

  /**
   * UPDATE_POINT moves the points with the given id and changes nothing
   * else about them or the session; an unknown id changes nothing at all.
   */
  lemma UpdatePointMovesOnly(s: AppState, id: string, x: real, y: real)
    ensures var r := Reduce(s, UpdatePoint(id, x, y));
            && r.(points := s.points) == s
            && |r.points| == |s.points|
            && (forall i :: 0 <= i < |s.points| ==>
                  && r.points[i].id == s.points[i].id
                  && r.points[i].pointType == s.points[i].pointType
                  && r.points[i].displayLabel == s.points[i].displayLabel
                  && (s.points[i].id == id ==> r.points[i].x == x && r.points[i].y == y)
                  && (s.points[i].id != id ==> r.points[i] == s.points[i]))
            && ((forall p :: p in s.points ==> p.id != id) ==> r == s)
  {
  }

  /**
   * DELETE_POINT removes the points with that id and every line that
   * has it as an end; the calibration is left as it was.
   */
  lemma DeletePointRemoves(s: AppState, id: string)
    ensures var r := Reduce(s, DeletePoint(id));
            && (forall p :: p in r.points <==> p in s.points && p.id != id)
            && (forall l :: l in r.lines <==> l in s.lines && l.startPointId != id && l.endPointId != id)
            && (forall l :: l in r.lines ==> l.startPointId != id && l.endPointId != id)
            && r.calibration == s.calibration
            && r.(points := s.points, lines := s.lines) == s
  {
  }

  /** ADD_LINE appends the line; nothing else changes. */
  lemma AddLineAppends(s: AppState, l: Line)
    ensures var r := Reduce(s, AddLine(l));
            && r.lines == s.lines + [l]
            && r.(lines := s.lines) == s
  {
  }

  /** DELETE_LINE drops the lines with that id and keeps every other line. */
  lemma DeleteLineRemoves(s: AppState, id: string)
    ensures var r := Reduce(s, DeleteLine(id));
            && (forall l :: l in r.lines <==> l in s.lines && l.id != id)
            && r.(lines := s.lines) == s
  {
  }

  /**
   * SET_CALIBRATION_DISTANCE stores the distance and the scale
   * `pixelDistance / d` when a calibration pair is present, and otherwise
   * returns the state unchanged.
   */
  lemma SetCalibrationDistanceEffect(s: AppState, d: real)
    requires Dispatchable(s, SetCalibrationDistance(d))
    ensures var r := Reduce(s, SetCalibrationDistance(d));
            && (s.calibration.points.None? ==> r == s)
            && (s.calibration.points.Some? ==>
                  var (p0, p1) := s.calibration.points.value;
                  && r.calibration.actualDistance == Some(d)
                  && r.calibration.pixelsPerUnit.Some?
                  && r.calibration.pixelsPerUnit.value * d == PixelDistance(p0, p1)
                  && r.calibration.points == s.calibration.points
                  && r.calibration.line == s.calibration.line
                  && r.(calibration := s.calibration) == s)
  {
  }

  /** SET_UNIT sets the unit only; no stored distance or scale is converted. */
  lemma SetUnitOnlyUnit(s: AppState, u: MeasurementUnit)
    ensures var r := Reduce(s, SetUnit(u));
            && r.selectedUnit == u && r.(selectedUnit := s.selectedUnit) == s
  {
  }

  /** SET_ZOOM stores the requested zoom clamped to [0.1, 10], and changes nothing else. */
  lemma SetZoomClamps(s: AppState, z: real)
    ensures var r := Reduce(s, SetZoom(z));
            && r.image.scale == Clamp(z, MIN_ZOOM, MAX_ZOOM)
            && MIN_ZOOM <= r.image.scale <= MAX_ZOOM
            && (MIN_ZOOM <= z <= MAX_ZOOM ==> r.image.scale == z)
            && r.(image := r.image.(scale := s.image.scale)) == s
  {
    ZoomLevelIsClamp(z);
  }

  /** Out-of-range zooms land on the limits. */
  lemma SetZoomExtremes(s: AppState)
    ensures Reduce(s, SetZoom(1000.0)).image.scale == 10.0
    ensures Reduce(s, SetZoom(0.0001)).image.scale == 0.1
  {
  }

  /** SET_PAN stores the offset as given, without clamping. */
  lemma SetPanStores(s: AppState, offset: Vec2)
    ensures var r := Reduce(s, SetPan(offset));
            && r.image.offset == offset
            && r.(image := r.image.(offset := s.image.offset)) == s
  {
  }

  /**
   * CLEAR_ALL empties points, lines and the selection and nulls the
   * calibration; the image with its zoom and pan, the unit and the mode stay.
   */
  lemma ClearAllResets(s: AppState)
    ensures var r := Reduce(s, ClearAll);
            && r.points == [] && r.lines == [] && r.selectedPoints == []
            && r.calibration == NoCalibration
            && r.image == s.image && r.selectedUnit == s.selectedUnit && r.activeMode == s.activeMode
  {
  }

  // ---------------------------------------------------------------------
  // Lines and the points they name
  // ---------------------------------------------------------------------

  /** Some point has the given id. */
  predicate HasPoint(ps: seq<Point>, id: string)
  {
    exists p :: p in ps && p.id == id
  }

  /** Every line names two points that exist. */
  predicate NoDanglingLines(s: AppState)
  {
    forall l :: l in s.lines ==> HasPoint(s.points, l.startPointId) && HasPoint(s.points, l.endPointId)
  }

  /** Deleting a point never leaves a line naming a missing point. */
  lemma DeletePointKeepsLinesAttached(s: AppState, id: string)
    requires NoDanglingLines(s)
    ensures NoDanglingLines(Reduce(s, DeletePoint(id)))
  {
    var r := Reduce(s, DeletePoint(id));
    forall l | l in r.lines
      ensures HasPoint(r.points, l.startPointId) && HasPoint(r.points, l.endPointId)
    {
      assert l in s.lines && l.startPointId != id && l.endPointId != id;
      var p :| p in s.points && p.id == l.startPointId;
      var q :| q in s.points && q.id == l.endPointId;
      assert p in r.points && q in r.points;
    }
  }

  /** Moving a point keeps its id, so no line becomes dangling. */
  lemma UpdatePointKeepsLinesAttached(s: AppState, id: string, x: real, y: real)
    requires NoDanglingLines(s)
    ensures NoDanglingLines(Reduce(s, UpdatePoint(id, x, y)))
  {
    var r := Reduce(s, UpdatePoint(id, x, y));
    forall l | l in r.lines
      ensures HasPoint(r.points, l.startPointId) && HasPoint(r.points, l.endPointId)
    {
      var p :| p in s.points && p.id == l.startPointId;
      var q :| q in s.points && q.id == l.endPointId;
      var i :| 0 <= i < |s.points| && s.points[i] == p;
      var j :| 0 <= j < |s.points| && s.points[j] == q;
      assert r.points[i] in r.points && r.points[j] in r.points;
    }
  }

  // ---------------------------------------------------------------------
  // Labels
  // ---------------------------------------------------------------------

  /** Deleting the first of two differently named points leaves the second. */
  lemma DeleteFirstOfTwo(s: AppState, p: Point, q: Point)
    requires s.points == [p, q] && p.id != q.id
    ensures Reduce(s, DeletePoint(p.id)).points == [q]
  {
    var keep := (pt: Point) => pt.id != p.id;
    FilterSnoc([], p, keep);
    FilterSnoc([p], q, keep);
    assert [] + [p] == [p] && [p] + [q] == s.points && [] + [q] == [q];
  }

  /** One point of a kind is counted once. */
  lemma CountOfSingleton(q: Point)
    ensures CountOfType([q], q.pointType) == 1
  {
    CountOfTypeSnoc([], q, q.pointType);
    assert [] + [q] == [q];
  }

  /**
   * Labels count the surviving points of a kind, so after a deletion a
   * new point can repeat a label that is still in use: with C1 and C2
   * present, deleting C1 and adding a calibration point yields a second C2.
   */
  lemma LabelRepeatsAfterDelete(s: AppState, p: Point, q: Point, id: string, x: real, y: real)
    requires s.points == [p, q] && LabelledInOrder(s.points)
    requires p.pointType == CalibrationType && q.pointType == CalibrationType && p.id != q.id
    ensures var s3 := Reduce(s, DeletePoint(p.id));
            var s4 := Reduce(s3, AddPointAction(s3, id, x, y, CalibrationType));
            && s4.points == [q, s4.points[1]]
            && s4.points[1].displayLabel == q.displayLabel == GeneratePointLabel(CalibrationType, 1)
  {
    var s3 := Reduce(s, DeletePoint(p.id));
    DeleteFirstOfTwo(s, p, q);
    CountOfSingleton(q);
    CountOfSingleton(p);
    assert s.points[..1] == [p];
    var a := AddPointAction(s3, id, x, y, CalibrationType);
    AddPointAppends(s3, a.point);
  }
}

=== FILE: Scenario.dfy ===
/**
 * An end-to-end session: load an 800x600 image, place calibration
 * points, enter a known distance, then place two measurement points.
 */
module Scenario {
  import opened Types
  import opened Utils
  import opened AppContext
  import opened ReducerProperties
  import opened App

  /** The session after loading the image and switching to calibrate mode. */
  ghost function Loaded(): (s: AppState)
    ensures s.points == [] && s.lines == [] && s.activeMode == Calibrate && HasImage(s)
    ensures s.calibration == NoCalibration
  {
    var s1 := Reduce(Initial(), SetImage(FileHandle("photo.png"), "blob:photo", Dimensions(800.0, 600.0)));
    Reduce(s1, SetMode(Calibrate))
  }

  /** The first two labels of each kind. */
  lemma FirstLabels()
    ensures GeneratePointLabel(CalibrationType, 0) == "C1" && GeneratePointLabel(CalibrationType, 1) == "C2"
    ensures GeneratePointLabel(MeasurementType, 0) == "M1" && GeneratePointLabel(MeasurementType, 1) == "M2"
  {
    assert NatToDecimal(1) == "1" && NatToDecimal(2) == "2";
  }

  /**
   * Two placing clicks on a session without points give two points of
   * the mode's kind, labelled with ordinals 1 and 2, at the clicked spots.
   */
  lemma TwoPlacingClicks(s: AppState, c1: Click, c2: Click, t: PointType)
    requires s.points == [] && s.activeMode != Pan && HasImage(s)
    requires t == (if s.activeMode == Calibrate then CalibrationType else MeasurementType)
    ensures var r := ClickStep(ClickStep(s, c1), c2);
            && r.points == [Point(c1.freshId, c1.at.x, c1.at.y, t, GeneratePointLabel(t, 0)),
                            Point(c2.freshId, c2.at.x, c2.at.y, t, GeneratePointLabel(t, 1))]
            && r.lines == s.lines && r.calibration == s.calibration && r.activeMode == s.activeMode
            && r.image == s.image
  {
    var p1 := Point(c1.freshId, c1.at.x, c1.at.y, t, GeneratePointLabel(t, 0));
    var s1 := ClickStep(s, c1);
    assert CountOfType(s.points, CalibrationType) == 0;
    assert s1.points == [p1];
    CountOfSingleton(p1);
    assert CountOfType(s1.points, CalibrationType) < 2 by {
      CountOfTypeSnoc([], p1, CalibrationType);
      assert [] + [p1] == [p1];
    }
  }

  /** Two clicks are handled one after the other. */
  lemma AfterTwoClicks(s: AppState, c1: Click, c2: Click)
    ensures AfterClicks(s, [c1, c2]) == ClickStep(ClickStep(s, c1), c2)
  {
    AfterClicksCons(s, c1, [c2]);
    AfterClicksCons(ClickStep(s, c1), c2, []);
    assert [c1, c2] == [c1] + [c2] && [c2] == [c2] + [];
  }

  /** Three clicks are handled one after the other. */
  lemma AfterThreeClicks(s: AppState, c1: Click, c2: Click, c3: Click)
    ensures AfterClicks(s, [c1, c2, c3]) == ClickStep(ClickStep(ClickStep(s, c1), c2), c3)
  {
    AfterClicksCons(s, c1, [c2, c3]);
    AfterTwoClicks(ClickStep(s, c1), c2, c3);
    assert [c1, c2, c3] == [c1] + [c2, c3];
  }

  /** With two calibration points present, a calibrate-mode click places nothing. */
  lemma ThirdCalibrationClickIgnored(s: AppState, c: Click)
    requires s.activeMode == Calibrate && |s.points| == 2 && HasImage(s)
    requires s.points[0].pointType == CalibrationType && s.points[1].pointType == CalibrationType
    ensures ClickStep(s, c) == s
  {
    var p, q := s.points[0], s.points[1];
    CountOfTypeSnoc([p], q, CalibrationType);
    CountOfSingleton(p);
    assert [p] + [q] == s.points;
    ClickWithoutPlacement(s, c);
  }

  /** Two points 200 pixels apart on a horizontal line. */
  lemma HorizontalDistance(p: Point, q: Point)
    requires p.x == 100.0 && p.y == 100.0 && q.x == 300.0 && q.y == 100.0
    ensures PixelDistance(p, q) == 200.0
  {
    assert IsRootOf(200.0, SquaredDistance(p, q));
    PixelDistanceExact(p, q, 200.0);
  }

  /**
   * Two points 50 pixels apart, at a supplied scale of 10 pixels per
   * centimetre, are 500 hundredths of a centimetre apart, which
   * `formatDistance` renders as 5 cm.
   */
  lemma FiveCentimetres(p: Point, q: Point)
    requires p.x == 0.0 && p.y == 0.0 && q.x == 0.0 && q.y == 50.0
    ensures FormatDistance(PixelsToUnits(PixelDistance(p, q), 10.0), Cm) == FormattedDistance(500, " cm")
  {
    assert IsRootOf(50.0, SquaredDistance(p, q));
    PixelDistanceExact(p, q, 50.0);
    assert PixelsToUnits(50.0, 10.0) == 5.0;
    assert RoundHundredths(5.0) == 500;
  }

  /**
   * From any calibrate-mode session without points or calibration,
   * clicking at (100,100), (300,100) and (500,100) yields C1 and C2 only,
   * 200 pixels apart; entering the distance 20 then changes nothing.
   */
  lemma CalibrationClicksFrom(s0: AppState)
    requires s0.points == [] && s0.activeMode == Calibrate && s0.calibration == NoCalibration && HasImage(s0)
    ensures var s := AfterClicks(s0, [Click(Vec2(100.0, 100.0), "p1"), Click(Vec2(300.0, 100.0), "p2"),
                                      Click(Vec2(500.0, 100.0), "p3")]);
            && |s.points| == 2
            && s.points[0].displayLabel == "C1" && s.points[1].displayLabel == "C2"
            && s.lines == s0.lines
            && PixelDistance(s.points[0], s.points[1]) == 200.0
            && Reduce(s, SetCalibrationDistance(20.0)) == s
            && s.calibration.pixelsPerUnit.None?
  {
    var c1, c2, c3 := Click(Vec2(100.0, 100.0), "p1"), Click(Vec2(300.0, 100.0), "p2"), Click(Vec2(500.0, 100.0), "p3");
    TwoPlacingClicks(s0, c1, c2, CalibrationType);
    var s2 := ClickStep(ClickStep(s0, c1), c2);
    assert |s2.points| == 2 && HasImage(s2) && s2.activeMode == Calibrate;
    ThirdCalibrationClickIgnored(s2, c3);
    AfterThreeClicks(s0, c1, c2, c3);
    FirstLabels();
    HorizontalDistance(s2.points[0], s2.points[1]);
  }

  /**
   * Clicking at (100,100), (300,100) and (500,100) after loading an image
   * yields C1 and C2 only, 200 pixels apart, and no line; entering the
   * distance 20 then changes nothing, so no scale is ever stored.
   */
  lemma CalibrationClicks()
    ensures var s := AfterClicks(Loaded(), [Click(Vec2(100.0, 100.0), "p1"), Click(Vec2(300.0, 100.0), "p2"),
                                            Click(Vec2(500.0, 100.0), "p3")]);
            && |s.points| == 2
            && s.points[0].displayLabel == "C1" && s.points[1].displayLabel == "C2"
            && s.lines == []
            && PixelDistance(s.points[0], s.points[1]) == 200.0
            && Reduce(s, SetCalibrationDistance(20.0)) == s
            && s.calibration.pixelsPerUnit.None?
  {
    CalibrationClicksFrom(Loaded());
  }

  /**
   * With a scale of 10 pixels per centimetre, measurement points at (0,0)
   * and (0,50) are labelled M1 and M2 and are 500 hundredths of a
   * centimetre apart, displayed as 5 cm.
   */
  lemma MeasurementClicks(s: AppState)
    requires s.activeMode == Measure && s.points == [] && HasImage(s)
    ensures var r := AfterClicks(s, [Click(Vec2(0.0, 0.0), "m1"), Click(Vec2(0.0, 50.0), "m2")]);
            && |r.points| == 2
            && r.points[0].displayLabel == "M1" && r.points[1].displayLabel == "M2"
            && r.lines == s.lines
            && FormatDistance(PixelsToUnits(PixelDistance(r.points[0], r.points[1]), 10.0), Cm)
               == FormattedDistance(500, " cm")
  {
    var c1, c2 := Click(Vec2(0.0, 0.0), "m1"), Click(Vec2(0.0, 50.0), "m2");
    TwoPlacingClicks(s, c1, c2, MeasurementType);
    AfterTwoClicks(s, c1, c2);
    FirstLabels();
    var r := ClickStep(ClickStep(s, c1), c2);
    FiveCentimetres(r.points[0], r.points[1]);
  }
}

=== FILE: Types.dfy ===
/**
 * Entity model of the measurement session: points, lines, calibration,
 * the loaded image with its viewport, the session state and the closed
 * set of actions the reducer accepts. Also the default values the
 * session starts from.
 */
module Types {

  /** A nullable value (`T | null` in the source). */
  datatype Option<T> = None | Some(value: T)

  /** Kind of a point or a line. */
  datatype PointType = CalibrationType | MeasurementType

  /** Real-world length units offered to the user. */
  datatype MeasurementUnit = Mm | Cm | Inches

  /** Tool mode of the canvas. */
  datatype Mode = Calibrate | Measure | Pan

  /** A point placed on the image, in image-space pixels. */
  datatype Point = Point(id: string, x: real, y: real, pointType: PointType, displayLabel: string)

  /**
   * A line joins two points by their ids only; it holds no point data.
   * ADD_LINE does not check the ids, so a line may name ids of points that
   * never existed.
   */
  datatype Line = Line(id: string, startPointId: string, endPointId: string, lineType: PointType,
                       distance: Option<real>)

  /**
   * The calibration aggregate. `points` is either absent or exactly two
   * points: the pair type makes any other count unrepresentable.
   */
  datatype Calibration = Calibration(points: Option<(Point, Point)>, line: Option<Line>,
                                     actualDistance: Option<real>, pixelsPerUnit: Option<real>)

  /** A two-dimensional vector: a pan offset, a pointer or a stage position. */
  datatype Vec2 = Vec2(x: real, y: real)

  /** Natural width and height of an image, or the size of a container. */
  datatype Dimensions = Dimensions(width: real, height: real)

  /** The browser file handle of an uploaded image; only its name is kept. */
  datatype FileHandle = FileHandle(name: string)

  /** The loaded image together with the viewport (zoom and pan). */
  datatype ImageData = ImageData(file: Option<FileHandle>, url: Option<string>,
                                 dimensions: Option<Dimensions>, scale: real, offset: Vec2)

  /** The whole session; the reducer maps one of these to the next. */
  datatype AppState = AppState(image: ImageData, calibration: Calibration, points: seq<Point>,
                               lines: seq<Line>, selectedUnit: MeasurementUnit, activeMode: Mode,
                               selectedPoints: seq<string>)

  /** The twelve actions the reducer understands; `ClearAll` carries no payload. */
  datatype AppAction =
    | SetImage(file: FileHandle, url: string, dimensions: Dimensions)
    | SetMode(mode: Mode)
    | AddPoint(point: Point)
    | UpdatePoint(id: string, x: real, y: real)
    | DeletePoint(id: string)
    | AddLine(line: Line)
    | DeleteLine(id: string)
    | SetCalibrationDistance(distance: real)
    | SetUnit(unit: MeasurementUnit)
    | ClearAll
    | SetZoom(zoom: real)
    | SetPan(offset: Vec2)

  const DEFAULT_ZOOM: real := 1.0
  const MIN_ZOOM: real := 0.1
  const MAX_ZOOM: real := 10.0
  const DEFAULT_UNIT: MeasurementUnit := Cm

  /** The calibration with every field null. */
  const NoCalibration: Calibration := Calibration(None, None, None, None)
}

=== FILE: Utils.dfy ===
/**
 * Geometry and unit helpers: pixel distance, pixel-to-unit scaling,
 * unit conversion through millimetres, point labels, distance rounding
 * and clamping.
 */
module Utils {
  import opened Types

  /** `Math.min` on two numbers. */
  function Min(a: real, b: real): (r: real)
    ensures r <= a && r <= b && (r == a || r == b)
  {
    if a <= b then a else b
  }

  /** `Math.max` on two numbers. */
  function Max(a: real, b: real): (r: real)
    ensures r >= a && r >= b && (r == a || r == b)
  {
    if a >= b then a else b
  }

  // ---------------------------------------------------------------------
  // Square root and pixel distance
  // ---------------------------------------------------------------------

  /** `r` is the non-negative square root of `q`. */
  predicate IsRootOf(r: real, q: real) { r >= 0.0 && r * r == q }

  /** A number has at most one non-negative square root. */
  lemma RootUnique(a: real, b: real, q: real)
    requires IsRootOf(a, q) && IsRootOf(b, q)
    ensures a == b
  {
    assert (a - b) * (a + b) == a * a - b * b;
    if a + b == 0.0 {
      assert a == 0.0 && b == 0.0;
    }
  }

  /**
   * `Math.sqrt` on the arguments it receives here: the non-negative square
   * root of `q` when `q >= 0` (squared distances are never negative), and
   * 0 for a negative `q`, where `Math.sqrt` would give NaN.
   */
  ghost function Sqrt(q: real): (r: real)
    ensures r >= 0.0
    ensures (exists t :: IsRootOf(t, q)) ==> IsRootOf(r, q)
    ensures q == 0.0 ==> r == 0.0
  {
    assert q == 0.0 ==> IsRootOf(0.0, q);
    if exists t :: IsRootOf(t, q) then
      var t :| IsRootOf(t, q);
      if q == 0.0 then RootUnique(t, 0.0, q); t else t
    else 0.0
  }

  /** The square of the Euclidean distance between two points. */
  function SquaredDistance(a: Point, b: Point): (q: real)
    ensures q >= 0.0
  {
    var dx := b.x - a.x;
    var dy := b.y - a.y;
    dx * dx + dy * dy
  }

  /** Euclidean distance between two points, in image pixels. */
  ghost function PixelDistance(a: Point, b: Point): (r: real)
    ensures r >= 0.0
    ensures a.x == b.x && a.y == b.y ==> r == 0.0
    ensures (exists t :: IsRootOf(t, SquaredDistance(a, b))) ==> r * r == SquaredDistance(a, b)
  {
    Sqrt(SquaredDistance(a, b))
  }

  /** The distance from a to b is the distance from b to a. */
  lemma PixelDistanceSymmetric(a: Point, b: Point)
    ensures PixelDistance(a, b) == PixelDistance(b, a)
  {
    assert (b.x - a.x) * (b.x - a.x) == (a.x - b.x) * (a.x - b.x);
    assert (b.y - a.y) * (b.y - a.y) == (a.y - b.y) * (a.y - b.y);
  }

  /** On a perfect square the distance is the exact root. */
  lemma PixelDistanceExact(a: Point, b: Point, d: real)
    requires IsRootOf(d, SquaredDistance(a, b))
    ensures PixelDistance(a, b) == d
  {
    RootUnique(PixelDistance(a, b), d, SquaredDistance(a, b));
  }

  // ---------------------------------------------------------------------
  // Pixels to units, unit conversion
  // ---------------------------------------------------------------------

  /** Scales a pixel length by a calibration; a zero scale yields 0. */
  function PixelsToUnits(pixels: real, pixelsPerUnit: real): (r: real)
    ensures pixelsPerUnit == 0.0 ==> r == 0.0
    ensures pixelsPerUnit != 0.0 ==> r * pixelsPerUnit == pixels
  {
    if pixelsPerUnit == 0.0 then 0.0 else pixels / pixelsPerUnit
  }

  /** How many millimetres one unit is. */
  function MillimetresPer(u: MeasurementUnit): (f: real)
    ensures f > 0.0
  {
    match u
    case Mm => 1.0
    case Cm => 10.0
    case Inches => 25.4
  }

  /** Converts a length between units, going through millimetres. */
  function ConvertUnits(value: real, fromUnit: MeasurementUnit, toUnit: MeasurementUnit): (r: real)
    ensures fromUnit == toUnit ==> r == value
  {
    if fromUnit == toUnit then value
    else
      var valueInMm := match fromUnit
        case Mm => value
        case Cm => value * 10.0
        case Inches => value * 25.4;
      match toUnit
      case Mm => valueInMm
      case Cm => valueInMm / 10.0
      case Inches => valueInMm / 25.4
  }

  /** Conversion multiplies by the ratio of the two units' sizes in millimetres. */
  lemma ConvertIsRatio(value: real, a: MeasurementUnit, b: MeasurementUnit)
    ensures ConvertUnits(value, a, b) == value * MillimetresPer(a) / MillimetresPer(b)
  {
    if a != b {
      match a
      case Mm =>
      case Cm => assert value * 10.0 / 25.4 == value * (10.0 / 25.4);
      case Inches => assert value * 25.4 / 10.0 == value * (25.4 / 10.0);
    }
  }

  /** Converting there and back returns the original value. */
  lemma ConvertRoundTrip(value: real, a: MeasurementUnit, b: MeasurementUnit)
    ensures ConvertUnits(ConvertUnits(value, a, b), b, a) == value
  {
    var fa, fb := MillimetresPer(a), MillimetresPer(b);
    ConvertIsRatio(value, a, b);
    ConvertIsRatio(ConvertUnits(value, a, b), b, a);
    assert value * fa / fb * fb / fa == value;
  }

  /** Conversion is linear: zero goes to zero and scaling commutes with it. */
  lemma ConvertLinear(value: real, k: real, a: MeasurementUnit, b: MeasurementUnit)
    ensures ConvertUnits(0.0, a, b) == 0.0
    ensures ConvertUnits(k * value, a, b) == k * ConvertUnits(value, a, b)
  {
    ConvertIsRatio(0.0, a, b);
    ConvertIsRatio(value, a, b);
    ConvertIsRatio(k * value, a, b);
    assert k * value * MillimetresPer(a) / MillimetresPer(b)
        == k * (value * MillimetresPer(a) / MillimetresPer(b));
  }

  // ---------------------------------------------------------------------
  // Point labels
  // ---------------------------------------------------------------------

  predicate IsDigit(c: char) { '0' <= c <= '9' }

  predicate AllDigits(s: string) { forall i :: 0 <= i < |s| ==> IsDigit(s[i]) }

  function DigitChar(d: nat): (c: char)
    requires d < 10
    ensures IsDigit(c) && c as int - '0' as int == d
  {
    ('0' as int + d) as char
  }

  /** Decimal rendering of a natural number, without leading zeros. */
  function NatToDecimal(n: nat): (s: string)
    ensures |s| >= 1 && AllDigits(s)
    ensures n >= 1 ==> s[0] != '0'
  {
    if n < 10 then [DigitChar(n)] else NatToDecimal(n / 10) + [DigitChar(n % 10)]
  }

  /** The number a string of decimal digits denotes. */
  function DecimalValue(s: string): nat
    requires AllDigits(s)
  {
    if s == [] then 0
    else DecimalValue(s[..|s| - 1]) * 10 + (s[|s| - 1] as int - '0' as int)
  }

  /** Reading back a rendered number gives that number. */
  lemma {:induction false} DecimalRoundTrip(n: nat)
    ensures DecimalValue(NatToDecimal(n)) == n
  {
    var s := NatToDecimal(n);
    if n >= 10 {
      DecimalRoundTrip(n / 10);
      assert s[..|s| - 1] == NatToDecimal(n / 10);
    }
  }

  /**
   * Label of a point: `C` or `M` followed by the decimal of `index + 1`,
   * where `index` counts the points of the same kind that already exist.
   */
  function GeneratePointLabel(t: PointType, index: nat): (r: string)
    ensures |r| >= 2 && r[0] == (if t == CalibrationType then 'C' else 'M')
    ensures AllDigits(r[1..]) && r[1] != '0' && DecimalValue(r[1..]) == index + 1
  {
    DecimalRoundTrip(index + 1);
    var prefix := if t == CalibrationType then 'C' else 'M';
    [prefix] + NatToDecimal(index + 1)
  }

  /** Different kinds or different indices never give the same label. */
  lemma LabelInjective(t1: PointType, i1: nat, t2: PointType, i2: nat)
    requires GeneratePointLabel(t1, i1) == GeneratePointLabel(t2, i2)
    ensures t1 == t2 && i1 == i2
  {
    var r := GeneratePointLabel(t1, i1);
    assert r[1..] == GeneratePointLabel(t2, i2)[1..];
  }

  // ---------------------------------------------------------------------
  // Distance formatting and clamping
  // ---------------------------------------------------------------------

  /** Name of a unit as it appears after a distance. */
  function UnitName(u: MeasurementUnit): string
  {
    match u
    case Mm => "mm"
    case Cm => "cm"
    case Inches => "inches"
  }

  /** A displayed distance: a whole number of hundredths and the unit suffix. */
  datatype FormattedDistance = FormattedDistance(hundredths: int, suffix: string)

  /** `Math.round(d * 100)`: the nearest whole number of hundredths, halves upward. */
  function RoundHundredths(d: real): (h: int)
    ensures (h as real) - 0.5 <= d * 100.0 < (h as real) + 0.5
  {
    (d * 100.0 + 0.5).Floor
  }

  /** A value that already has at most two decimals is left as it is. */
  lemma RoundHundredthsExact(h: int)
    ensures RoundHundredths(h as real / 100.0) == h
  {
    assert (h as real / 100.0) * 100.0 == h as real;
  }

  /** Rounding is monotone. */
  lemma RoundHundredthsMonotone(a: real, b: real)
    requires a <= b
    ensures RoundHundredths(a) <= RoundHundredths(b)
  {
  }

  /** A distance rounded to hundredths, followed by a space and the unit name. */
  function FormatDistance(d: real, u: MeasurementUnit): (f: FormattedDistance)
    ensures (f.hundredths as real) - 0.5 <= d * 100.0 < (f.hundredths as real) + 0.5
    ensures f.suffix == " " + UnitName(u)
  {
    FormattedDistance(RoundHundredths(d), " " + UnitName(u))
  }

  /** `Math.min(Math.max(value, min), max)`. */
  function Clamp(value: real, min: real, max: real): (r: real)
    ensures min <= max ==> min <= r <= max
    ensures min <= value <= max ==> r == value
    ensures min > max ==> r == max
    ensures r == value || r == min || r == max
  {
    Min(Max(value, min), max)
  }

  /** Clamping twice is clamping once. */
  lemma ClampIdempotent(value: real, min: real, max: real)
    ensures Clamp(Clamp(value, min, max), min, max) == Clamp(value, min, max)
  {
  }
}
